=== FILE: README.md ===
# Vaulto financial projection engine in Dafny

The repository holds two copies of one projection engine:

- `FinancialModel.calculate` in backend/model_engine.py (Python);
- `LocalFinancialModel.calculate` in frontend/src/localModel.ts (TypeScript). Its header describes it as the copy used when the backend API is unavailable.

Both take 18 business assumptions (`ModelInputs`) and run a month loop. The loop carries the user count from month to month. Every month it appends one row to the monthly table:

- users: total, active, new, churned, premium and free;
- revenue: four streams and their total;
- costs: variable and fixed costs and their total;
- profit: gross profit, EBITDA and the two margins.

From that table a summary is computed:

- Total ARPU, LTV and LTV/CAC;
- revenue and EBITDA for each projection year;
- the final month's users and revenue;
- the mean margins.

The engine also ships three scenario presets: base, best and worst.

The two copies use the same formulas. They differ only in their numeric conversions:

| | Python | TypeScript |
|---|---|---|
| percentage of users to a whole count | `int(...)`, truncation toward zero | `Math.floor` |
| rounding to cents | `round(x, 2)`, ties to the even cent | `Math.round(x * 100) / 100`, ties upward |

The model is one engine, parameterised by `Numerics.Engine` (`Backend` or `Frontend`). Every theorem is stated for both engines. The model proves where the two agree and gives concrete inputs where they part:

- when the start and the rates are not negative and churn is at most 100 %, they compute the same user counts and the same unrounded figures;
- a negative churn rate separates their user counts;
- a tie such as 0.125 separates their roundings.

Modules:

- `Numerics`: the count conversions and the cent roundings, with their nearest, monotone and idempotent properties.
- `Inputs`: `ModelInputs`, the scenario presets and the lookup by name.
- `Months`: the specification of one month.
  - `UsersAt`: the user recurrence.
  - `Figures`/`Breakdown`: the figures of one month from its user counts.
  - `MonthAt`: the unrounded month m.
  - `Rounded`: the row as stored.
- `Table`: the monthly table and its columns.
- `Rollup`: the summary (`Summarize`).
- `Projection`: the month loop (`ProjectMonths`, a `while` loop proved against `ProjectedRows`) and `Calculate`.
- `MonthFacts`, `RowFacts`, `SummaryFacts`, `ScenarioFacts`: the properties, as lemmas.

Rounding: neither implementation rounds ties away from zero.

- Python's `round` rounds ties to the even cent.
- `Math.round` rounds ties toward positive infinity, so -0.125 becomes -0.12.

## Model

| member | source | states |
|---|---|---|
| Numerics.TruncToInt | backend/model_engine.py:127-129 | `int()` truncates toward zero: 0 <= r <= x < r + 1 for x >= 0, and x <= r <= 0 with r - 1 < x for negative x |
| Numerics.FloorToInt | frontend/src/localModel.ts:121-123 | `Math.floor` gives the largest integer r with r <= x < r + 1 |
| Numerics.RoundHalfEvenNearest | backend/model_engine.py:170-184 | `round()` gives an integer within 0.5 of its argument, and an even one on a tie |
| Numerics.RoundHalfUpNearest | frontend/src/localModel.ts:165-179 | `Math.round` gives the integer r with r - 0.5 <= y < r + 0.5, so ties go up |
| Numerics.Round2Cents | backend/model_engine.py:170-184 | rounding to two decimals gives a whole number of cents at most half a cent from its argument, in either engine |
| Numerics.Round2Zero | backend/model_engine.py:191-197 | the 0 fallback of a guarded margin or ratio stays 0 once rounded |
| Numerics.Round2OfCents | frontend/src/localModel.ts:165-179 | a whole number of cents is left unchanged by rounding |
| Numerics.Round2Idempotent | frontend/src/localModel.ts:165-179 | rounding an already rounded amount changes nothing |
| Numerics.Round2Monotone | backend/model_engine.py:170-184 | rounding to cents preserves order, in both engines |
| Numerics.RoundHalfEvenMonotone | backend/model_engine.py:170-184 | half-to-even rounding preserves order |
| Numerics.Round2KeepsUpperBound | backend/model_engine.py:182 | a value at or below a whole number of cents (such as 100 %) stays at or below it once rounded |
| Numerics.Round2KeepsLowerBound | frontend/src/localModel.ts:177 | a value at or above a whole number of cents stays at or above it once rounded |
| Numerics.RoundingTieDiverges | frontend/src/localModel.ts:165 | the engines disagree on ties: 0.125 is stored as 0.12 by Python and as 0.13 by TypeScript |
| Numerics.ToCountWithin | backend/model_engine.py:127-135 | a non-negative share of users becomes a count between 0 and the share, in both engines |
| Numerics.ToCountMonotone | frontend/src/localModel.ts:121-131 | a larger share never gives a smaller count, in both engines |
| Numerics.ToCountAgreeOnNonNegative | frontend/src/localModel.ts:121-131 | on a non-negative share `int()` and `Math.floor` give the same count |
| Numerics.ToCountDivergesOnNegative | backend/model_engine.py:129 | on -0.5 they disagree: `int()` gives 0 and `Math.floor` gives -1 |
| Inputs.Scenarios | backend/model_engine.py:14-77 | the preset table has exactly the names base, best and worst |
| Inputs.GetScenario | backend/main.py:68-74 | a known name yields its preset; any other name yields `None`, the not-found error, and never a default |
| Inputs.PresetsAreWellFormed | frontend/src/localModel.ts:10-71 | every preset projects 36 months, satisfies `InRange` (non-negative users and growth, churn and conversion in 0..100), and spends 100000 a month on fixed costs |
| Months.Margin | backend/model_engine.py:158-161 | a margin times the revenue is the profit times 100 when revenue is positive; otherwise the margin is 0 and there is no division by zero |
| Months.Rounded | backend/model_engine.py:164-169 | storing a row leaves all six user counts as computed |
| RowFacts.RoundedNearComputed | backend/model_engine.py:170-184 | storing a row turns each of its fifteen amounts and percentages into a whole number of cents within half a cent of the computed value |
| RowFacts.RoundedIdempotent | frontend/src/localModel.ts:165-179 | storing an already stored row again changes nothing |
| MonthFacts.FiguresUsers | backend/model_engine.py:135-136 | a month's premium users are the engine's count of the conversion share of active users; free users are the rest; total and active users are the month's users |
| MonthFacts.FiguresAmounts | backend/model_engine.py:139-161 | each revenue stream is premium users times its ARPU; total revenue is their sum; CAC and KYC follow new users; infrastructure follows active users; the cost, profit and EBITDA identities hold; margins are relative to revenue |
| MonthFacts.SeedMonth | backend/model_engine.py:121-124 | month 1 has no new and no churned users and keeps the initial users |
| MonthFacts.UserRecurrence | backend/model_engine.py:126-132 | every later month converts growth and churn from the previous month's total, and its total is previous + new - churned |
| MonthFacts.MonthUsers | frontend/src/localModel.ts:107-128 | month m carries `UsersAt(m)` as both its total and its active users |
| MonthFacts.MonthIdentities | frontend/src/localModel.ts:130-156 | in every month, premium + free = active; revenue, cost, gross-profit and EBITDA identities hold; fixed costs are the three fixed cost lines |
| MonthFacts.FixedCostsConstant | backend/model_engine.py:151-153 | fixed costs are the same in every month: payroll + R&D + operations |
| MonthFacts.ShareBounds | backend/model_engine.py:127-135 | a share of a non-negative user count lies between 0 and the share at any larger percentage, and at most the users when the percentage is at most 100 |
| MonthFacts.StepNonNegative | backend/model_engine.py:126-132 | with non-negative growth and churn in 0..100, a non-negative count gains a non-negative number of users and loses at most all of them |
| MonthFacts.StepKeepsNonNegative | backend/model_engine.py:126-132 | with non-negative growth and churn at most 100 % of either sign, a non-negative count gains a non-negative number of users and never loses more users than it has |
| MonthFacts.UsersNonNegative | backend/model_engine.py:117-132 | with `CountsStayNonNegative` inputs (non-negative initial users and growth, churn at most 100 %, of either sign) the user count is never negative |
| MonthFacts.PremiumWithinActive | frontend/src/localModel.ts:130-131 | for any non-negative users and a conversion rate in 0..100 (nothing else assumed), 0 <= premium <= active users and free users are non-negative |
| MonthFacts.ShareMonotone | frontend/src/localModel.ts:121-123 | for a non-negative user count, a larger percentage of any sign gives a larger share |
| MonthFacts.UsersStepNonDecreasing | frontend/src/localModel.ts:119-127 | for any non-negative start and any rates with churn at most growth (even outside 0..100), every month has at least the initial users and no fewer users than the month before |
| MonthFacts.UsersNonDecreasing | frontend/src/localModel.ts:119-127 | under the same two conditions, UsersAt(m) <= UsersAt(m') for any two months m <= m' |
| MonthFacts.EnginesAgreeOnUsers | frontend/src/localModel.ts:119-127 | with `UserRatesInRange` inputs (`CountsStayNonNegative` and a non-negative churn rate) the Python and TypeScript user counts are equal in every month |
| MonthFacts.FiguresDependOnPremiumCount | frontend/src/localModel.ts:130-156 | the engine affects a month's figures only through the premium count |
| MonthFacts.EnginesAgreeOnFigures | frontend/src/localModel.ts:109-156 | with `UserRatesInRange` inputs and a non-negative conversion rate the two engines compute the same unrounded figures in every month |
| MonthFacts.EnginesDivergeOnNegativeChurn | backend/model_engine.py:129 | with churn at -50 % and one user, month 2 has 1 user in Python and 2 in TypeScript |
| MonthFacts.MarginMonotone | backend/model_engine.py:158-161 | a margin grows with its profit at fixed revenue |
| MonthFacts.MarginsBounded | backend/model_engine.py:158-161 | with non-negative unit costs the gross margin is at most 100 %; with non-negative fixed costs the net margin is at most the gross margin |
| MonthFacts.FiguresAmountsNonNegative | backend/model_engine.py:139-149 | with non-negative user counts, ARPUs, unit costs and conversion rate, no revenue stream and no variable cost is negative |
| MonthFacts.MonthMarginsBounded | frontend/src/localModel.ts:153-156 | with `CountsStayNonNegative` inputs (non-negative initial users and growth, churn at most 100 %, of either sign) and non-negative CAC, KYC and infrastructure unit costs, every month's gross margin is at most 100 %; with non-negative fixed costs its net margin is at most its gross margin |
| MonthFacts.MonthMargins | backend/model_engine.py:158-161 | in every month both margins are the guarded ratio of profit (gross profit, EBITDA) to that month's computed total revenue |
| Table.MonthNumbers | backend/model_engine.py:92 | the Month column is 1..n in order |
| Table.Column | backend/model_engine.py:201-210 | a column has one entry per row, namely that row's field |
| Rollup.YearTotal | backend/model_engine.py:201-206 | year 1 sums the rounded values of the first 12 months, or of all months if there are fewer; years 2 and 3 sum months 13-24 and 25-36 and are 0 unless the horizon reaches 24 or 36 months |
| Rollup.LtvCacRatio | backend/model_engine.py:189-191 | the ratio times CAC is the LTV when CAC is positive; otherwise the ratio is 0 |
| Rollup.Summarize | frontend/src/localModel.ts:189-207 | echoes CAC, churn and lifetime; LTV, LTV/CAC and Total ARPU are their rounded unit-economics values; each yearly revenue and EBITDA figure is `YearTotal` of its column, so years 2 and 3 are 0 on short horizons; the final-month figures are the last row's; the average margins are the rounded means of the margin columns |
| Projection.ProjectedRows | frontend/src/localModel.ts:109-180 | the loop's rows after n months number n |
| Projection.ProjectedRowsPrefix | frontend/src/localModel.ts:109-180 | a longer horizon only appends months: the first m rows of an n-month projection are the m-month projection |
| Projection.ProjectedRowsAt | backend/model_engine.py:119-184 | row k of the table is month k + 1 of the recurrence, rounded |
| Projection.ProjectMonths | frontend/src/localModel.ts:82-180 | the month loop fills Month with 1..n and appends exactly the n rounded months of the recurrence, in order |
| Projection.Calculate | backend/model_engine.py:83-217 | returns the inputs unchanged, the projected table (row k is month k + 1 rounded) and the summary of that table |
| RowFacts.StoredRow | backend/model_engine.py:164-179 | a stored row holds `UsersAt(m)` as total and active users; premium + free = active; fixed costs are the rounded fixed costs; the seed row has no new or churned users |
| RowFacts.StoredRecurrence | frontend/src/localModel.ts:119-162 | the stored rows themselves obey the recurrence: new and churned users are converted from the previous stored total, and total = previous + new - churned |
| RowFacts.StoredUsersNonNegative | backend/model_engine.py:126-169 | with `InRange` inputs (`UserRatesInRange` and conversion in 0..100) every stored user count is non-negative and premium users never exceed active users |
| RowFacts.StoredTotalsNearSums | backend/model_engine.py:170-183 | stored total revenue is within 2.5 cents of its four stored streams; stored EBITDA is within 1.5 cents of stored revenue less stored costs |
| RowFacts.StoredAmountsNonNegative | frontend/src/localModel.ts:165-173 | with `CountsStayNonNegative` inputs and a non-negative conversion rate, ARPUs and unit costs, no stored revenue stream and no stored variable cost is negative |
| RowFacts.StoredMarginsBounded | frontend/src/localModel.ts:153-179 | with `CountsStayNonNegative` inputs (non-negative initial users and growth, churn at most 100 %, of either sign) and non-negative CAC, KYC and infrastructure unit costs, the stored gross margin is at most 100 %; with non-negative fixed costs the stored net margin is at most the stored gross margin |
| RowFacts.StoredMarginsZeroWithoutRevenue | backend/model_engine.py:158-184 | a month whose computed total revenue is 0 or less stores both margins as 0 |
| RowFacts.StoredWithRevenueGuard | frontend/src/localModel.ts:153-179 | storage with the margin guard applied to the stored revenue: same stored revenue; both margins 0 whenever that revenue is 0.00 or less; otherwise the row is stored exactly as the engines store it |
| RowFacts.RevenueGuardChangesOnlyTinyRevenue | backend/model_engine.py:158-184 | the guarded storage differs from the engines' storage only in months whose computed revenue lies in (0, 0.005] |
| SummaryFacts.SumAppend | backend/model_engine.py:201-206 | the sum of a concatenation is the sum of the parts |
| SummaryFacts.SumOfYears | backend/model_engine.py:201-206 | the three yearly windows partition the first 36 months |
| SummaryFacts.SumAtMost | backend/model_engine.py:209-210 | a column bounded by b sums to at most its length times b |
| SummaryFacts.MeanAtMost | backend/model_engine.py:209-210 | a non-empty column bounded by b has a mean at most b |
| SummaryFacts.YearTotalsCoverThreeYears | frontend/src/localModel.ts:197-202 | the three rounded year totals add up to within 1.5 cents of the total of the first 36 months |
| SummaryFacts.SummaryFinalMonth | backend/model_engine.py:207-208 | the final-month users are the recurrence's last count, and the final-month revenue is that month's revenue rounded |
| SummaryFacts.SummaryUnitEconomics | backend/model_engine.py:187-199 | Total ARPU, LTV and LTV/CAC are stored within half a cent of their exact values; LTV/CAC is 0 when CAC is not positive |
| SummaryFacts.SummaryYearsCoverThreeYears | backend/model_engine.py:201-206 | on a 36-month horizon, the three yearly revenue figures and the three yearly EBITDA figures each add up to within 1.5 cents of the 36-month total |
| SummaryFacts.MarginColumnsBounded | frontend/src/localModel.ts:177-179 | with `CountsStayNonNegative` inputs (non-negative initial users and growth, churn at most 100 %, of either sign) and non-negative CAC, KYC and infrastructure unit costs, every gross margin in a projected table is at most 100 %; with non-negative fixed costs so is every net margin |
| SummaryFacts.SummaryAverageMarginsBounded | backend/model_engine.py:209-210 | with `CountsStayNonNegative` inputs (non-negative initial users and growth, churn at most 100 %, of either sign) and non-negative CAC, KYC and infrastructure unit costs, the average gross margin is at most 100 %, and so is the average net margin when fixed costs are non-negative |
| ScenarioFacts.BaseScenarioMonthOne | backend/model_engine.py:17-36 | base month 1: 1000 users, 200 premium, 800 free, revenue 2800, variable costs 500, gross profit 2300, EBITDA -97700 |
| ScenarioFacts.BaseScenarioMonthOneMargin | frontend/src/localModel.ts:11-30 | the stored month-1 gross margin of the base preset is 82.14 |
| ScenarioFacts.BaseScenarioMonthTwo | backend/model_engine.py:17-36 | base month 2: 150 new and 50 churned users, 1100 in total, 220 premium, revenue 3080, CAC cost 7500, KYC 750, infrastructure 550 |
| ScenarioFacts.BaseScenarioUnitEconomics | frontend/src/localModel.ts:11-30 | base preset: Total ARPU 14, LTV 336, LTV/CAC 6.72 |
| ScenarioFacts.TinyRevenueMonth | backend/model_engine.py:135-161 | for one premium user with ARPU 0.004 and infrastructure cost 0.5 (all else 0), month 1 has revenue 0.004 and gross margin -12400 % |
| ScenarioFacts.TinyRevenueRoundsToZero | frontend/src/localModel.ts:169 | a revenue of 0.004 is stored as 0.00 by both engines |
| ScenarioFacts.TinyRevenueStoredMargin | backend/model_engine.py:158-184 | both engines store that month with total revenue 0.00 and gross margin -12400.00 |

## Left out

- Floating point: amounts are exact reals and percentages are exact decimals. Python's `round(x, 2)` rounds the binary value, so a decimal tie such as 2.675 may round down in the source. The model rounds the exact decimal.
- `Months.Share`, `Months.UsersAt`, `Numerics.Round2`: user counts and the TypeScript cent rounding are those of exact arithmetic. The source computes them in binary floating point, which can fall just below a whole number.
  - Premium users: for 100 users and a 29 % conversion rate, `100 * (29 / 100)` is 28.999999999999996 in both engines. They store 28 premium and 72 free users where the model stores 29 and 71.
  - Growth and churn: the same happens to new and churned users (backend/model_engine.py:127-129, frontend/src/localModel.ts:121-123). A count one lower then carries through `current_users` into every later month's users, revenue and costs.
  - TypeScript rounding: `1.005 * 100` is 100.49999999999999, so `Math.round(x * 100) / 100` stores 1.00 where `Round2(Frontend, 1.005)` is 1.01.
  - At such inputs the source's count or stored cent can be one lower than the model's.
- `np.mean` is modelled as the exact sum over the count, before the final rounding.
- The table is stored as rows. `Table.Column` reads a row field down the table, which is how the source's columns are read by the summary. The column-of-lists layout, `pd.DataFrame` and the JSON returned by the HTTP API are not part of this model.
- `Projection.Calculate` and `Projection.ProjectMonths` require `ProjectionMonths >= 1`. With 0 months Python fails on `[-1]` of an empty list and TypeScript yields `undefined` and `NaN` in the summary; the model does not describe that path.
- Input validation: the engine checks no range of its inputs. `Inputs.CountsStayNonNegative`, `Inputs.UserRatesInRange` and `Inputs.InRange` state ranges the presets satisfy. Each lemma takes as hypotheses only the ranges its statement needs.
- `ARPU_Free` and `AvgTransactionVolume` are carried in `ModelInputs` but no formula uses them, so no theorem mentions them.
- `InitialUsers` is an integer, as the backend's request model declares it (backend/main.py:28-46). A fractional value would be possible in TypeScript; it is not modelled.
- `get_scenarios`/`getScenarios` return the stored preset object itself, so a caller could mutate it. `Inputs.Scenarios` is an immutable value; that aliasing is not modelled.
- The HTTP endpoints other than the scenario lookup, the CSV export, the network client with its fallback, and the UI are not part of this model.

## Findings

| source | as written | input that shows it | evidently intended | confidence | as-written member | corrected member |
|---|---|---|---|---|---|---|
| backend/model_engine.py:158-184 | the margin guard `total_revenue > 0` (also frontend/src/localModel.ts:154-156) tests the computed revenue, but the column stores that revenue rounded to cents | InitialUsers 1, PremiumConversionRate 100, ARPU_Premium 0.004, VariableCost_Infrastructure 0.5, every other input 0: the month is stored with TotalRevenue 0.00 and GrossMargin -12400.00 | a month stored with no revenue stores margins of 0 | medium, not executed | ScenarioFacts.TinyRevenueStoredMargin | RowFacts.StoredWithRevenueGuard |

The projection itself (`Projection.ProjectMonths`, `Projection.Calculate`) keeps the storage as written. `RowFacts.RevenueGuardChangesOnlyTinyRevenue` bounds where the two storages differ.

=== FILE: inputs.dfy ===
/** The input record of the projection engine and the preset scenario table
    (`_define_scenarios`/`get_scenarios` in backend/model_engine.py,
    `scenarios`/`getScenarios` in frontend/src/localModel.ts). */
module Inputs {

  datatype Option<T> = None | Some(value: T)

  /** One set of business assumptions. Rates are percentages, money is per
      month (or per user per month). ArpuFree and AvgTransactionVolume are
      carried along but no formula reads them. */
  datatype ModelInputs = ModelInputs(
    InitialUsers: int,
    MonthlyGrowthRate: real,
    ChurnRate: real,
    Cac: real,
    ArpuFree: real,
    ArpuPremium: real,
    ArpuStablecoinYield: real,
    ArpuAssetFee: real,
    ArpuApi: real,
    PremiumConversionRate: real,
    AvgTransactionVolume: real,
    AverageLifetimeMonths: real,
    FixedCostsPayroll: real,
    FixedCostsRnD: real,
    FixedCostsOperations: real,
    VariableCostKyc: real,
    VariableCostInfrastructure: real,
    ProjectionMonths: int)

  /** The inputs for which the user count never goes negative: no negative
      start, no negative growth and a churn rate of at most 100 %, of either
      sign. The engine itself never checks any of this. */
  predicate CountsStayNonNegative(inputs: ModelInputs)
  {
    && inputs.InitialUsers >= 0
    && inputs.MonthlyGrowthRate >= 0.0
    && inputs.ChurnRate <= 100.0
  }

  /** ... and, in addition, a churn rate that is not negative, so that no
      month has a negative number of churned users. */
  predicate UserRatesInRange(inputs: ModelInputs)
  {
    CountsStayNonNegative(inputs) && 0.0 <= inputs.ChurnRate
  }

  /** ... and, in addition, a conversion rate between 0 % and 100 %, so that
      the premium users are a part of the active users. */
  predicate InRange(inputs: ModelInputs)
  {
    UserRatesInRange(inputs) && 0.0 <= inputs.PremiumConversionRate <= 100.0
  }

  const BaseScenario := ModelInputs(
    1000, 15.0, 5.0, 50.0, 0.0, 7.0, 2.5, 3.0, 1.5, 20.0, 500.0, 24.0,
    50000.0, 30000.0, 20000.0, 5.0, 0.5, 36)

  const BestScenario := ModelInputs(
    1500, 25.0, 3.0, 40.0, 0.0, 10.0, 4.0, 5.0, 2.5, 30.0, 750.0, 36.0,
    50000.0, 30000.0, 20000.0, 4.0, 0.4, 36)

  const WorstScenario := ModelInputs(
    500, 8.0, 8.0, 70.0, 0.0, 5.0, 1.5, 2.0, 1.0, 12.0, 300.0, 18.0,
    50000.0, 30000.0, 20000.0, 6.0, 0.6, 36)

  /** The preset table: exactly the names "base", "best" and "worst". */
  function Scenarios(): (table: map<string, ModelInputs>)
    ensures table.Keys == {"base", "best", "worst"}
  {
    map["base" := BaseScenario, "best" := BestScenario, "worst" := WorstScenario]
  }

  /** Looking a scenario up by name: an unknown name is reported, never
      replaced by a default record. */
  function GetScenario(name: string): (r: Option<ModelInputs>)
    ensures r.None? <==> name != "base" && name != "best" && name != "worst"
    ensures name == "base" ==> r == Some(BaseScenario)
    ensures name == "best" ==> r == Some(BestScenario)
    ensures name == "worst" ==> r == Some(WorstScenario)
  {
    var table := Scenarios();
    if name in table then Some(table[name]) else None
  }

  /** Every preset projects 36 months, lies in the range where user counts
      stay non-negative, and spends the same 100000 a month on fixed costs. */
  lemma PresetsAreWellFormed(name: string)
    requires name in Scenarios()
    ensures Scenarios()[name].ProjectionMonths == 36
    ensures InRange(Scenarios()[name])
    ensures Scenarios()[name].FixedCostsPayroll + Scenarios()[name].FixedCostsRnD
            + Scenarios()[name].FixedCostsOperations == 100000.0
  {
  }
}

=== FILE: month_facts.dfy ===
/** What the month functions promise: the seed month, the user recurrence,
    the premium/free split, the revenue and cost identities and the margin
    guards, and how the two implementations' counts relate. */
module MonthFacts {
  import opened Numerics
  import opened Inputs
  import opened Months

  /** The user columns of a month's figures: the users are carried into
      the row unchanged, and the premium users (the converted share of the
      active users) and the free users make up the active users. */
  lemma FiguresUsers(e: Engine, inputs: ModelInputs, users: int, newUsers: int, churnedUsers: int)
    ensures var r := Figures(e, inputs, users, newUsers, churnedUsers);
      && r.TotalUsers == users && r.ActiveUsers == users
      && r.NewUsers == newUsers && r.ChurnedUsers == churnedUsers
      && r.PremiumUsers == ToCount(e, Share(users, inputs.PremiumConversionRate))
      && r.PremiumUsers + r.FreeUsers == r.ActiveUsers
  {
  }

  /** The amounts of a month's figures: only premium users earn, through the
      four streams; acquisition costs follow new users and infrastructure
      follows active users; fixed costs do not depend on users; both margins
      are guarded profit over revenue. */
  lemma FiguresAmounts(e: Engine, inputs: ModelInputs, users: int, newUsers: int, churnedUsers: int)
    ensures var r := Figures(e, inputs, users, newUsers, churnedUsers);
      && r.RevenuePremium == r.PremiumUsers as real * inputs.ArpuPremium
      && r.RevenueStablecoin == r.PremiumUsers as real * inputs.ArpuStablecoinYield
      && r.RevenueAssetFee == r.PremiumUsers as real * inputs.ArpuAssetFee
      && r.RevenueApi == r.PremiumUsers as real * inputs.ArpuApi
      && r.RevenuePremium + r.RevenueStablecoin + r.RevenueAssetFee + r.RevenueApi == r.TotalRevenue
      && r.TotalRevenue == r.PremiumUsers as real * TotalArpu(inputs)
      && r.CacCost == newUsers as real * inputs.Cac
      && r.KycCost == newUsers as real * inputs.VariableCostKyc
      && r.InfrastructureCost == users as real * inputs.VariableCostInfrastructure
      && r.TotalVariableCosts == r.CacCost + r.KycCost + r.InfrastructureCost
      && r.FixedCosts == MonthlyFixedCosts(inputs)
      && r.TotalCosts == r.TotalVariableCosts + r.FixedCosts
      && r.GrossProfit == r.TotalRevenue - r.TotalVariableCosts
      && r.Ebitda == r.TotalRevenue - r.TotalCosts
      && r.GrossMargin == Margin(r.GrossProfit, r.TotalRevenue)
      && r.NetMargin == Margin(r.Ebitda, r.TotalRevenue)
  {
  }

  /** Month 1 is the seed month: no new and no churned users, so no
      acquisition costs, and the initial users are both the total and the
      active users. */
  lemma SeedMonth(e: Engine, inputs: ModelInputs)
    ensures var r := MonthAt(e, inputs, 1);
      && r.NewUsers == 0 && r.ChurnedUsers == 0
      && r.TotalUsers == inputs.InitialUsers && r.ActiveUsers == inputs.InitialUsers
      && r.CacCost == 0.0 && r.KycCost == 0.0
  {
    FiguresUsers(e, inputs, inputs.InitialUsers, 0, 0);
    FiguresAmounts(e, inputs, inputs.InitialUsers, 0, 0);
  }

  /** Every later month starts from the previous month's total, gains the
      new users and loses the churned ones, both converted from the previous
      total; the active users are the updated total. */
  lemma UserRecurrence(e: Engine, inputs: ModelInputs, m: int)
    requires m >= 2
    ensures var previous := MonthAt(e, inputs, m - 1).TotalUsers;
      var r := MonthAt(e, inputs, m);
      && r.NewUsers == ToCount(e, Share(previous, inputs.MonthlyGrowthRate))
      && r.ChurnedUsers == ToCount(e, Share(previous, inputs.ChurnRate))
      && r.TotalUsers == previous + r.NewUsers - r.ChurnedUsers
      && r.ActiveUsers == r.TotalUsers
  {
    var previous := UsersAt(e, inputs, m - 1);
    MonthUsers(e, inputs, m - 1);
    FiguresUsers(e, inputs, UsersAt(e, inputs, m),
                      NewUsersFrom(e, inputs, previous), ChurnedUsersFrom(e, inputs, previous));
  }

  /** The row of month m carries UsersAt(m) as its user count. */
  lemma MonthUsers(e: Engine, inputs: ModelInputs, m: int)
    requires m >= 1
    ensures MonthAt(e, inputs, m).TotalUsers == UsersAt(e, inputs, m)
    ensures MonthAt(e, inputs, m).ActiveUsers == UsersAt(e, inputs, m)
  {
    if m == 1 {
      FiguresUsers(e, inputs, inputs.InitialUsers, 0, 0);
    } else {
      var previous := UsersAt(e, inputs, m - 1);
      FiguresUsers(e, inputs, UsersAt(e, inputs, m),
                        NewUsersFrom(e, inputs, previous), ChurnedUsersFrom(e, inputs, previous));
    }
  }

  /** Fixed costs are the same in every month. */
  lemma FixedCostsConstant(e: Engine, inputs: ModelInputs, m: int, m': int)
    requires m >= 1 && m' >= 1
    ensures MonthAt(e, inputs, m).FixedCosts == MonthAt(e, inputs, m').FixedCosts
    ensures MonthAt(e, inputs, m).FixedCosts
            == inputs.FixedCostsPayroll + inputs.FixedCostsRnD + inputs.FixedCostsOperations
  {
    MonthIdentities(e, inputs, m);
    MonthIdentities(e, inputs, m');
  }

  /** A share of a non-negative count grows with the percentage and, up to
      100 %, stays within the count. */
  lemma ShareBounds(users: int, pct: real, pct': real)
    requires users >= 0 && 0.0 <= pct <= pct'
    ensures 0.0 <= Share(users, pct) <= Share(users, pct')
    ensures pct <= 100.0 ==> Share(users, pct) <= users as real
  {
    var u, a, b := users as real, pct / 100.0, pct' / 100.0;
    assert 0.0 <= a <= b;
    assert 0.0 <= u * a;
    assert u * b - u * a == u * (b - a);
    assert 0.0 <= u * (b - a);
    if pct <= 100.0 {
      assert u - u * a == u * (1.0 - a);
      assert 0.0 <= u * (1.0 - a);
    }
  }

  /** One month's step keeps a non-negative count non-negative when growth
      is not negative and churn is a percentage: at most every user churns. */
  lemma StepNonNegative(e: Engine, inputs: ModelInputs, users: int)
    requires inputs.MonthlyGrowthRate >= 0.0 && 0.0 <= inputs.ChurnRate <= 100.0
    requires users >= 0
    ensures 0 <= NewUsersFrom(e, inputs, users)
    ensures 0 <= ChurnedUsersFrom(e, inputs, users) <= users
  {
    ShareBounds(users, inputs.ChurnRate, inputs.ChurnRate);
    ShareBounds(users, inputs.MonthlyGrowthRate, inputs.MonthlyGrowthRate);
    ToCountWithin(e, Share(users, inputs.ChurnRate));
    ToCountWithin(e, Share(users, inputs.MonthlyGrowthRate));
  }

  /** One month's step keeps a non-negative count non-negative whenever
      growth is not negative and churn is at most 100 %, whatever its sign:
      the churned users never exceed the users. */
  lemma StepKeepsNonNegative(e: Engine, inputs: ModelInputs, users: int)
    requires inputs.MonthlyGrowthRate >= 0.0 && inputs.ChurnRate <= 100.0
    requires users >= 0
    ensures 0 <= NewUsersFrom(e, inputs, users)
    ensures ChurnedUsersFrom(e, inputs, users) <= users
  {
    ShareBounds(users, inputs.MonthlyGrowthRate, inputs.MonthlyGrowthRate);
    ToCountWithin(e, Share(users, inputs.MonthlyGrowthRate));
    ShareMonotone(users, inputs.ChurnRate, 100.0);
    assert Share(users, 100.0) == users as real;
    ToCountMonotone(e, Share(users, inputs.ChurnRate), users as real);
    assert ToCount(e, users as real) == users;
  }

  /** With a non-negative start, non-negative growth and churn of at most
      100 %, the user count never goes negative. */
  lemma {:induction false} UsersNonNegative(e: Engine, inputs: ModelInputs, m: int)
    requires CountsStayNonNegative(inputs)
    requires m >= 1
    ensures UsersAt(e, inputs, m) >= 0
    decreases m
  {
    if m > 1 {
      UsersNonNegative(e, inputs, m - 1);
      StepKeepsNonNegative(e, inputs, UsersAt(e, inputs, m - 1));
    }
  }

  /** The premium users are a part of the active users: with a conversion
      rate between 0 and 100 %, 0 <= premium <= active and free users are
      never negative. */
  lemma PremiumWithinActive(e: Engine, inputs: ModelInputs, users: int, newUsers: int, churnedUsers: int)
    requires 0.0 <= inputs.PremiumConversionRate <= 100.0
    requires users >= 0
    ensures var r := Figures(e, inputs, users, newUsers, churnedUsers);
      0 <= r.PremiumUsers <= r.ActiveUsers && 0 <= r.FreeUsers
  {
    ShareBounds(users, inputs.PremiumConversionRate, inputs.PremiumConversionRate);
    ToCountWithin(e, Share(users, inputs.PremiumConversionRate));
  }

  /** A share of a non-negative count grows with the percentage, whatever
      the sign of the percentages. */
  lemma ShareMonotone(users: int, pct: real, pct': real)
    requires users >= 0 && pct <= pct'
    ensures Share(users, pct) <= Share(users, pct')
  {
    var u, a, b := users as real, pct / 100.0, pct' / 100.0;
    assert u * b - u * a == u * (b - a);
    assert 0.0 <= u * (b - a);
  }

  /** When growth is at least churn, whatever the two rates are, a
      non-negative start never falls from one month to the next. */
  lemma {:induction false} UsersStepNonDecreasing(e: Engine, inputs: ModelInputs, m: int)
    requires inputs.InitialUsers >= 0
    requires inputs.ChurnRate <= inputs.MonthlyGrowthRate
    requires m >= 1
    ensures inputs.InitialUsers <= UsersAt(e, inputs, m) <= UsersAt(e, inputs, m + 1)
    decreases m
  {
    if m > 1 {
      UsersStepNonDecreasing(e, inputs, m - 1);
    }
    var users := UsersAt(e, inputs, m);
    ShareMonotone(users, inputs.ChurnRate, inputs.MonthlyGrowthRate);
    ToCountMonotone(e, Share(users, inputs.ChurnRate), Share(users, inputs.MonthlyGrowthRate));
  }

  /** ... and so over any span of months. */
  lemma {:induction false} UsersNonDecreasing(e: Engine, inputs: ModelInputs, m: int, m': int)
    requires inputs.InitialUsers >= 0
    requires inputs.ChurnRate <= inputs.MonthlyGrowthRate
    requires 1 <= m <= m'
    ensures UsersAt(e, inputs, m) <= UsersAt(e, inputs, m')
    decreases m' - m
  {
    if m < m' {
      UsersStepNonDecreasing(e, inputs, m);
      UsersNonDecreasing(e, inputs, m + 1, m');
    }
  }

  /** Python's truncation and TypeScript's floor give the same user count
      in every month of a projection with valid inputs. */
  lemma {:induction false} EnginesAgreeOnUsers(inputs: ModelInputs, m: int)
    requires UserRatesInRange(inputs)
    requires m >= 1
    ensures UsersAt(Backend, inputs, m) == UsersAt(Frontend, inputs, m)
    decreases m
  {
    if m > 1 {
      EnginesAgreeOnUsers(inputs, m - 1);
      UsersNonNegative(Backend, inputs, m - 1);
      var users := UsersAt(Backend, inputs, m - 1);
      ShareBounds(users, inputs.MonthlyGrowthRate, inputs.MonthlyGrowthRate);
      ShareBounds(users, inputs.ChurnRate, inputs.ChurnRate);
      ToCountAgreeOnNonNegative(Share(users, inputs.MonthlyGrowthRate));
      ToCountAgreeOnNonNegative(Share(users, inputs.ChurnRate));
    }
  }

  /** The engine enters a month's figures only through the premium count. */
  lemma FiguresDependOnPremiumCount(inputs: ModelInputs, users: int, newUsers: int, churnedUsers: int)
    requires ToCount(Backend, Share(users, inputs.PremiumConversionRate))
          == ToCount(Frontend, Share(users, inputs.PremiumConversionRate))
    ensures Figures(Backend, inputs, users, newUsers, churnedUsers)
         == Figures(Frontend, inputs, users, newUsers, churnedUsers)
  {
  }

  /** ... and so the same unrounded figures in every month. */
  lemma EnginesAgreeOnFigures(inputs: ModelInputs, m: int)
    requires UserRatesInRange(inputs) && inputs.PremiumConversionRate >= 0.0
    requires m >= 1
    ensures MonthAt(Backend, inputs, m) == MonthAt(Frontend, inputs, m)
  {
    EnginesAgreeOnUsers(inputs, m);
    var users := UsersAt(Backend, inputs, m);
    UsersNonNegative(Backend, inputs, m);
    ShareBounds(users, inputs.PremiumConversionRate, inputs.PremiumConversionRate);
    ToCountAgreeOnNonNegative(Share(users, inputs.PremiumConversionRate));
    var newUsers, churnedUsers := 0, 0;
    if m > 1 {
      EnginesAgreeOnUsers(inputs, m - 1);
      var previous := UsersAt(Backend, inputs, m - 1);
      UsersNonNegative(Backend, inputs, m - 1);
      ShareBounds(previous, inputs.MonthlyGrowthRate, inputs.MonthlyGrowthRate);
      ShareBounds(previous, inputs.ChurnRate, inputs.ChurnRate);
      ToCountAgreeOnNonNegative(Share(previous, inputs.MonthlyGrowthRate));
      ToCountAgreeOnNonNegative(Share(previous, inputs.ChurnRate));
      newUsers, churnedUsers := NewUsersFrom(Backend, inputs, previous), ChurnedUsersFrom(Backend, inputs, previous);
      assert newUsers == NewUsersFrom(Frontend, inputs, previous);
      assert churnedUsers == ChurnedUsersFrom(Frontend, inputs, previous);
    }
    FiguresDependOnPremiumCount(inputs, users, newUsers, churnedUsers);
  }

  /** Outside the valid range they part: with a churn rate of -50 % a single
      user stays one user in Python (int(-0.5) is 0) but becomes two in
      TypeScript (Math.floor(-0.5) is -1). */
  lemma EnginesDivergeOnNegativeChurn(inputs: ModelInputs)
    requires inputs.InitialUsers == 1
    requires inputs.MonthlyGrowthRate == 0.0 && inputs.ChurnRate == -50.0
    ensures UsersAt(Backend, inputs, 2) == 1
    ensures UsersAt(Frontend, inputs, 2) == 2
  {
    assert 1.0 * (-50.0 / 100.0) == -0.5;
    ToCountDivergesOnNegative();
    assert (0.0).Floor == 0;
  }

  /** A margin grows with the profit it is computed from. */
  lemma MarginMonotone(profit: real, profit': real, revenue: real)
    requires profit <= profit'
    ensures Margin(profit, revenue) <= Margin(profit', revenue)
  {
    if revenue > 0.0 {
      assert profit / revenue <= profit' / revenue;
    }
  }

  /** When variable costs cannot be negative, the gross margin is at most
      100 %, and the net margin is at most the gross margin when fixed costs
      cannot be negative either. */
  lemma MarginsBounded(e: Engine, inputs: ModelInputs, users: int, newUsers: int, churnedUsers: int)
    requires users >= 0 && newUsers >= 0
    requires inputs.Cac >= 0.0 && inputs.VariableCostKyc >= 0.0 && inputs.VariableCostInfrastructure >= 0.0
    ensures Figures(e, inputs, users, newUsers, churnedUsers).GrossMargin <= 100.0
    ensures MonthlyFixedCosts(inputs) >= 0.0 ==>
      Figures(e, inputs, users, newUsers, churnedUsers).NetMargin
        <= Figures(e, inputs, users, newUsers, churnedUsers).GrossMargin
  {
    var r := Figures(e, inputs, users, newUsers, churnedUsers);
    FiguresAmounts(e, inputs, users, newUsers, churnedUsers);
    assert r.TotalVariableCosts >= 0.0 by {
      assert newUsers as real * inputs.Cac >= 0.0;
      assert newUsers as real * inputs.VariableCostKyc >= 0.0;
      assert users as real * inputs.VariableCostInfrastructure >= 0.0;
    }
    MarginMonotone(r.GrossProfit, r.TotalRevenue, r.TotalRevenue);
    assert Margin(r.TotalRevenue, r.TotalRevenue) <= 100.0;
    if MonthlyFixedCosts(inputs) >= 0.0 {
      MarginMonotone(r.Ebitda, r.GrossProfit, r.TotalRevenue);
    }
  }

  /** The margin bounds hold in every month of a projection whose user
      counts stay non-negative and whose unit costs are not negative. */
  lemma MonthMarginsBounded(e: Engine, inputs: ModelInputs, m: int)
    requires CountsStayNonNegative(inputs) && m >= 1
    requires inputs.Cac >= 0.0 && inputs.VariableCostKyc >= 0.0 && inputs.VariableCostInfrastructure >= 0.0
    ensures MonthAt(e, inputs, m).GrossMargin <= 100.0
    ensures MonthlyFixedCosts(inputs) >= 0.0 ==> MonthAt(e, inputs, m).NetMargin <= MonthAt(e, inputs, m).GrossMargin
  {
    UsersNonNegative(e, inputs, m);
    if m == 1 {
      MarginsBounded(e, inputs, inputs.InitialUsers, 0, 0);
    } else {
      var previous := UsersAt(e, inputs, m - 1);
      UsersNonNegative(e, inputs, m - 1);
      StepKeepsNonNegative(e, inputs, previous);
      MarginsBounded(e, inputs, UsersAt(e, inputs, m),
                     NewUsersFrom(e, inputs, previous), ChurnedUsersFrom(e, inputs, previous));
    }
  }

  /** The identities of FiguresUsers and FiguresAmounts, for month m. */
  lemma MonthIdentities(e: Engine, inputs: ModelInputs, m: int)
    requires m >= 1
    ensures var r := MonthAt(e, inputs, m);
      && r.PremiumUsers + r.FreeUsers == r.ActiveUsers
      && r.RevenuePremium + r.RevenueStablecoin + r.RevenueAssetFee + r.RevenueApi == r.TotalRevenue
      && r.TotalVariableCosts == r.CacCost + r.KycCost + r.InfrastructureCost
      && r.FixedCosts == MonthlyFixedCosts(inputs)
      && r.TotalCosts == r.TotalVariableCosts + r.FixedCosts
      && r.GrossProfit == r.TotalRevenue - r.TotalVariableCosts
      && r.Ebitda == r.TotalRevenue - r.TotalCosts
  {
    var users, newUsers, churnedUsers := inputs.InitialUsers, 0, 0;
    if m > 1 {
      var previous := UsersAt(e, inputs, m - 1);
      users, newUsers, churnedUsers := UsersAt(e, inputs, m),
        NewUsersFrom(e, inputs, previous), ChurnedUsersFrom(e, inputs, previous);
    }
    assert MonthAt(e, inputs, m) == Figures(e, inputs, users, newUsers, churnedUsers);
    FiguresUsers(e, inputs, users, newUsers, churnedUsers);
    FiguresAmounts(e, inputs, users, newUsers, churnedUsers);
  }

  /** With non-negative user counts, ARPUs and unit costs, no revenue
      stream and no variable cost of a month is negative. */
  lemma FiguresAmountsNonNegative(e: Engine, inputs: ModelInputs, users: int, newUsers: int, churnedUsers: int)
    requires users >= 0 && newUsers >= 0
    requires 0.0 <= inputs.PremiumConversionRate
    requires inputs.ArpuPremium >= 0.0 && inputs.ArpuStablecoinYield >= 0.0
    requires inputs.ArpuAssetFee >= 0.0 && inputs.ArpuApi >= 0.0
    requires inputs.Cac >= 0.0 && inputs.VariableCostKyc >= 0.0 && inputs.VariableCostInfrastructure >= 0.0
    ensures var r := Figures(e, inputs, users, newUsers, churnedUsers);
      && 0.0 <= r.RevenuePremium && 0.0 <= r.RevenueStablecoin
      && 0.0 <= r.RevenueAssetFee && 0.0 <= r.RevenueApi && 0.0 <= r.TotalRevenue
      && 0.0 <= r.CacCost && 0.0 <= r.KycCost && 0.0 <= r.InfrastructureCost
      && 0.0 <= r.TotalVariableCosts
  {
    ShareBounds(users, inputs.PremiumConversionRate, inputs.PremiumConversionRate);
    ToCountWithin(e, Share(users, inputs.PremiumConversionRate));
    FiguresUsers(e, inputs, users, newUsers, churnedUsers);
    FiguresAmounts(e, inputs, users, newUsers, churnedUsers);
    var p := ToCount(e, Share(users, inputs.PremiumConversionRate)) as real;
    assert 0.0 <= p * inputs.ArpuPremium && 0.0 <= p * inputs.ArpuStablecoinYield;
    assert 0.0 <= p * inputs.ArpuAssetFee && 0.0 <= p * inputs.ArpuApi;
    assert 0.0 <= newUsers as real * inputs.Cac && 0.0 <= newUsers as real * inputs.VariableCostKyc;
    assert 0.0 <= users as real * inputs.VariableCostInfrastructure;
  }

  /** Both margins of month m are guarded profit over that month's revenue. */
  lemma MonthMargins(e: Engine, inputs: ModelInputs, m: int)
    requires m >= 1
    ensures var r := MonthAt(e, inputs, m);
      && r.GrossMargin == Margin(r.GrossProfit, r.TotalRevenue)
      && r.NetMargin == Margin(r.Ebitda, r.TotalRevenue)
  {
    var users, newUsers, churnedUsers := inputs.InitialUsers, 0, 0;
    if m > 1 {
      var previous := UsersAt(e, inputs, m - 1);
      users, newUsers, churnedUsers := UsersAt(e, inputs, m),
        NewUsersFrom(e, inputs, previous), ChurnedUsersFrom(e, inputs, previous);
    }
    assert MonthAt(e, inputs, m) == Figures(e, inputs, users, newUsers, churnedUsers);
    FiguresAmounts(e, inputs, users, newUsers, churnedUsers);
  }
}

=== FILE: months.dfy ===
/** One simulated month: the user recurrence carried from month to month and
    the revenue, cost and profitability figures derived from a month's user
    counts. These functions are the specification the month loop in
    Projection.Calculate is proved against. */
module Months {
  import opened Numerics
  import opened Inputs

  /** One row of the monthly table (every column except the month number). */
  datatype MonthRow = MonthRow(
    TotalUsers: int,
    ActiveUsers: int,
    NewUsers: int,
    ChurnedUsers: int,
    PremiumUsers: int,
    FreeUsers: int,
    RevenuePremium: real,
    RevenueStablecoin: real,
    RevenueAssetFee: real,
    RevenueApi: real,
    TotalRevenue: real,
    CacCost: real,
    KycCost: real,
    InfrastructureCost: real,
    TotalVariableCosts: real,
    FixedCosts: real,
    TotalCosts: real,
    GrossProfit: real,
    GrossMargin: real,
    Ebitda: real,
    NetMargin: real)

  /** `pct` percent of `users`, before it is converted to a whole count. */
  function Share(users: int, pct: real): real
  {
    users as real * (pct / 100.0)
  }

  /** Users won in a month that starts with `users` users. */
  function NewUsersFrom(e: Engine, inputs: ModelInputs, users: int): int
  {
    ToCount(e, Share(users, inputs.MonthlyGrowthRate))
  }

  /** Users lost in a month that starts with `users` users. */
  function ChurnedUsersFrom(e: Engine, inputs: ModelInputs, users: int): int
  {
    ToCount(e, Share(users, inputs.ChurnRate))
  }

  /** The user count at the end of month m (months are numbered from 1):
      month 1 is the seed month, every later month adds the new users and
      removes the churned ones, both computed from the previous count. */
  function UsersAt(e: Engine, inputs: ModelInputs, m: int): int
    requires m >= 1
    decreases m
  {
    if m == 1 then inputs.InitialUsers
    else
      var previous := UsersAt(e, inputs, m - 1);
      previous + NewUsersFrom(e, inputs, previous) - ChurnedUsersFrom(e, inputs, previous)
  }

  /** Per-user monthly revenue of a premium user, the sum of the four streams. */
  function TotalArpu(inputs: ModelInputs): real
  {
    inputs.ArpuPremium + inputs.ArpuStablecoinYield + inputs.ArpuAssetFee + inputs.ArpuApi
  }

  /** The monthly fixed costs, independent of any user count. */
  function MonthlyFixedCosts(inputs: ModelInputs): real
  {
    inputs.FixedCostsPayroll + inputs.FixedCostsRnD + inputs.FixedCostsOperations
  }

  /** A margin in percent: profit over revenue times 100, or 0 unless
      revenue is positive, so that there is never a division by zero. */
  function Margin(profit: real, revenue: real): (r: real)
    ensures revenue > 0.0 ==> r * revenue == profit * 100.0
    ensures revenue <= 0.0 ==> r == 0.0
  {
    if revenue > 0.0 then profit / revenue * 100.0 else 0.0
  }

  /** The figures of one month, before rounding, from the month's active
      users and its new and churned users: the engine converts the premium
      share of the active users into a count, the rest follows from it. */
  function Figures(e: Engine, inputs: ModelInputs, users: int, newUsers: int, churnedUsers: int): MonthRow
  {
    Breakdown(inputs, users, ToCount(e, Share(users, inputs.PremiumConversionRate)), newUsers, churnedUsers)
  }

  /** A month's row from its user counts. Only premium users earn revenue;
      acquisition costs follow new users, infrastructure follows active users;
      both margins fall back to 0 unless revenue is positive. */
  function Breakdown(inputs: ModelInputs, users: int, premiumUsers: int, newUsers: int, churnedUsers: int): MonthRow
  {
    var freeUsers := users - premiumUsers;
    var revenuePremium := premiumUsers as real * inputs.ArpuPremium;
    var revenueStablecoin := premiumUsers as real * inputs.ArpuStablecoinYield;
    var revenueAssetFee := premiumUsers as real * inputs.ArpuAssetFee;
    var revenueApi := premiumUsers as real * inputs.ArpuApi;
    var totalRevenue := revenuePremium + revenueStablecoin + revenueAssetFee + revenueApi;
    var cacCost := newUsers as real * inputs.Cac;
    var kycCost := newUsers as real * inputs.VariableCostKyc;
    var infrastructureCost := users as real * inputs.VariableCostInfrastructure;
    var totalVariableCosts := cacCost + kycCost + infrastructureCost;
    var fixedCosts := MonthlyFixedCosts(inputs);
    var totalCosts := totalVariableCosts + fixedCosts;
    var grossProfit := totalRevenue - totalVariableCosts;
    var grossMargin := Margin(grossProfit, totalRevenue);
    var ebitda := totalRevenue - totalCosts;
    var netMargin := Margin(ebitda, totalRevenue);
    MonthRow(users, users, newUsers, churnedUsers, premiumUsers, freeUsers,
             revenuePremium, revenueStablecoin, revenueAssetFee, revenueApi, totalRevenue,
             cacCost, kycCost, infrastructureCost, totalVariableCosts,
             fixedCosts, totalCosts, grossProfit, grossMargin, ebitda, netMargin)
  }

  /** The unrounded figures of month m. */
  function MonthAt(e: Engine, inputs: ModelInputs, m: int): MonthRow
    requires m >= 1
  {
    if m == 1 then Figures(e, inputs, inputs.InitialUsers, 0, 0)
    else
      var previous := UsersAt(e, inputs, m - 1);
      Figures(e, inputs, UsersAt(e, inputs, m),
              NewUsersFrom(e, inputs, previous), ChurnedUsersFrom(e, inputs, previous))
  }

  /** A row as it is stored: user counts unchanged, every amount and
      percentage rounded to cents. */
  function Rounded(e: Engine, r: MonthRow): (s: MonthRow)
    ensures s.TotalUsers == r.TotalUsers && s.ActiveUsers == r.ActiveUsers
    ensures s.NewUsers == r.NewUsers && s.ChurnedUsers == r.ChurnedUsers
    ensures s.PremiumUsers == r.PremiumUsers && s.FreeUsers == r.FreeUsers
  {
    r.(RevenuePremium := Round2(e, r.RevenuePremium),
       RevenueStablecoin := Round2(e, r.RevenueStablecoin),
       RevenueAssetFee := Round2(e, r.RevenueAssetFee),
       RevenueApi := Round2(e, r.RevenueApi),
       TotalRevenue := Round2(e, r.TotalRevenue),
       CacCost := Round2(e, r.CacCost),
       KycCost := Round2(e, r.KycCost),
       InfrastructureCost := Round2(e, r.InfrastructureCost),
       TotalVariableCosts := Round2(e, r.TotalVariableCosts),
       FixedCosts := Round2(e, r.FixedCosts),
       TotalCosts := Round2(e, r.TotalCosts),
       GrossProfit := Round2(e, r.GrossProfit),
       GrossMargin := Round2(e, r.GrossMargin),
       Ebitda := Round2(e, r.Ebitda),
       NetMargin := Round2(e, r.NetMargin))
  }
}

=== FILE: numerics.dfy ===
/** Integer conversion and rounding to cents: the two places where the Python
    engine (backend/model_engine.py) and its browser copy
    (frontend/src/localModel.ts) compute differently. Floating point is
    modelled by exact reals. */
module Numerics {

  /** Which of the two implementations of the engine is being modelled. */
  datatype Engine =
    | Backend   // Python: user counts via int(...), cents via round(x, 2)
    | Frontend  // TypeScript: user counts via Math.floor, cents via Math.round(x * 100) / 100

  /** Python's int() applied to a float: truncation toward zero. */
  function TruncToInt(x: real): (r: int)
    ensures 0.0 <= x ==> 0 <= r && r as real <= x < r as real + 1.0
    ensures x < 0.0 ==> r <= 0 && r as real - 1.0 < x <= r as real
  {
    if x >= 0.0 then x.Floor else -((-x).Floor)
  }

  /** JavaScript's Math.floor: the largest integer not above x. */
  function FloorToInt(x: real): (r: int)
    ensures r as real <= x < r as real + 1.0
  {
    x.Floor
  }

  /** Python's round() to an integer: the nearest one, ties to the even one
      (RoundHalfEvenNearest). */
  function RoundHalfEven(y: real): int
  {
    var f := y.Floor;
    var d := y - f as real;
    if d < 0.5 then f
    else if d > 0.5 then f + 1
    else if f % 2 == 0 then f
    else f + 1
  }

  /** JavaScript's Math.round: the nearest integer, ties toward +infinity
      (RoundHalfUpNearest). */
  function RoundHalfUp(y: real): int
  {
    (y + 0.5).Floor
  }

  lemma RoundHalfEvenNearest(y: real)
    ensures RoundHalfEven(y) as real - 0.5 <= y <= RoundHalfEven(y) as real + 0.5
    ensures y == RoundHalfEven(y) as real - 0.5 || y == RoundHalfEven(y) as real + 0.5
            ==> RoundHalfEven(y) % 2 == 0
  {
  }

  lemma RoundHalfUpNearest(y: real)
    ensures RoundHalfUp(y) as real - 0.5 <= y < RoundHalfUp(y) as real + 0.5
  {
  }

  /** A product of users and a percentage turned into a whole number of
      users, as each engine does it. */
  function ToCount(e: Engine, x: real): int
  {
    match e
    case Backend => TruncToInt(x)
    case Frontend => FloorToInt(x)
  }

  /** Rounding to two decimals as each engine does it: round(x, 2) in
      Python, Math.round(x * 100) / 100 in TypeScript (Round2Cents). */
  function Round2(e: Engine, x: real): real
  {
    var cents := match e
      case Backend => RoundHalfEven(x * 100.0)
      case Frontend => RoundHalfUp(x * 100.0);
    cents as real / 100.0
  }

  /** Either rounding gives a whole number of cents at most half a cent
      away from its argument. */
  lemma Round2Cents(e: Engine, x: real)
    ensures (Round2(e, x) * 100.0).Floor as real == Round2(e, x) * 100.0
    ensures -0.005 <= Round2(e, x) - x <= 0.005
  {
    var cents := if e == Backend then RoundHalfEven(x * 100.0) else RoundHalfUp(x * 100.0);
    RoundHalfEvenNearest(x * 100.0);
    RoundHalfUpNearest(x * 100.0);
    assert Round2(e, x) == cents as real / 100.0;
    assert (cents as real / 100.0) * 100.0 == cents as real;
  }

  /** On a non-negative product both engines give a count between 0 and the
      product. */
  lemma ToCountWithin(e: Engine, x: real)
    requires 0.0 <= x
    ensures 0 <= ToCount(e, x) && ToCount(e, x) as real <= x
  {
  }

  /** Each engine's count conversion is monotone. */
  lemma ToCountMonotone(e: Engine, x: real, y: real)
    requires x <= y
    ensures ToCount(e, x) <= ToCount(e, y)
  {
    if e == Frontend {
      assert FloorToInt(x) as real <= y;
    } else if 0.0 <= x {
      assert TruncToInt(x) as real <= y;
    } else if y < 0.0 {
      assert -y <= -x;
      assert (-y).Floor as real <= -x;
      assert (-y).Floor <= (-x).Floor;
    }
  }

  /** On a non-negative product the two engines count the same. */
  lemma ToCountAgreeOnNonNegative(x: real)
    requires 0.0 <= x
    ensures ToCount(Backend, x) == ToCount(Frontend, x)
  {
  }

  /** On a negative product they differ: int(-0.5) is 0, Math.floor(-0.5) is -1. */
  lemma ToCountDivergesOnNegative()
    ensures ToCount(Backend, -0.5) == 0
    ensures ToCount(Frontend, -0.5) == -1
  {
    assert (0.5).Floor == 0;
    assert (-0.5).Floor == -1;
  }

  /** Rounding leaves 0 at 0: the fallback values of the guarded divisions
      stay 0 once rounded. */
  lemma Round2Zero(e: Engine)
    ensures Round2(e, 0.0) == 0.0
  {
    Round2Cents(e, 0.0);
    var r := Round2(e, 0.0);
    var n := (r * 100.0).Floor;
    assert -0.5 <= r * 100.0 <= 0.5;
    assert n == 0;
  }

  /** A whole number of cents is left alone by either engine's rounding. */
  lemma Round2OfCents(e: Engine, n: int)
    ensures Round2(e, n as real / 100.0) == n as real / 100.0
  {
    var x := n as real / 100.0;
    assert x * 100.0 == n as real;
    assert (n as real).Floor == n;
    assert ((n as real) + 0.5).Floor == n;
  }

  /** Rounding to cents is idempotent in both engines. */
  lemma Round2Idempotent(e: Engine, x: real)
    ensures Round2(e, Round2(e, x)) == Round2(e, x)
  {
    Round2Cents(e, x);
    var r := Round2(e, x);
    var n := (r * 100.0).Floor;
    assert r == n as real / 100.0;
    Round2OfCents(e, n);
  }

  /** Either rounding is monotone. */
  lemma Round2Monotone(e: Engine, x: real, y: real)
    requires x <= y
    ensures Round2(e, x) <= Round2(e, y)
  {
    assert x * 100.0 <= y * 100.0;
    if e == Backend {
      RoundHalfEvenMonotone(x * 100.0, y * 100.0);
    } else {
      assert RoundHalfUp(x * 100.0) <= RoundHalfUp(y * 100.0);
    }
  }

  lemma RoundHalfEvenMonotone(x: real, y: real)
    requires x <= y
    ensures RoundHalfEven(x) <= RoundHalfEven(y)
  {
    if x < y {
      RoundHalfEvenNearest(x);
      RoundHalfEvenNearest(y);
    }
  }

  /** Rounding never moves a value across a whole number of cents that
      bounds it from above: an upper bound such as 100 % survives. */
  lemma Round2KeepsUpperBound(e: Engine, x: real, n: int)
    requires x <= n as real / 100.0
    ensures Round2(e, x) <= n as real / 100.0
  {
    Round2Cents(e, x);
    var r := Round2(e, x);
    var m := (r * 100.0).Floor;
    assert r <= n as real / 100.0 + 0.005;
    assert r * 100.0 <= n as real + 0.5;
    assert m < n + 1;
  }

  /** ... and likewise from below. */
  lemma Round2KeepsLowerBound(e: Engine, x: real, n: int)
    requires n as real / 100.0 <= x
    ensures n as real / 100.0 <= Round2(e, x)
  {
    Round2Cents(e, x);
    var r := Round2(e, x);
    var m := (r * 100.0).Floor;
    assert n as real / 100.0 - 0.005 <= r;
    assert n as real - 0.5 <= r * 100.0;
    assert n - 1 < m;
  }

  /** The two engines round a tie differently: 0.125 becomes 0.12 in Python
      (half to even) and 0.13 in TypeScript (half up). */
  lemma RoundingTieDiverges()
    ensures Round2(Backend, 0.125) == 0.12
    ensures Round2(Frontend, 0.125) == 0.13
  {
    assert 0.125 * 100.0 == 12.5;
    assert (12.5).Floor == 12;
    assert (13.0).Floor == 13;
  }
}

=== FILE: projection.dfy ===
/** The engine entry point: `FinancialModel.calculate` in
    backend/model_engine.py and `LocalFinancialModel.calculate` in
    frontend/src/localModel.ts. The two differ only in their numeric
    conversions, selected by the engine parameter `e`. */
module Projection {
  import opened Numerics
  import opened Inputs
  import opened Months
  import opened Table
  import opened Rollup

  /** What calculate returns: the table, its summary and the inputs echoed. */
  datatype Results = Results(table: MonthlyTable, summary: Summary, inputs: ModelInputs)

  /** The stored rows after the first n months of the loop: row k holds
      month k + 1 as the specification computes it, rounded. */
  function ProjectedRows(e: Engine, inputs: ModelInputs, n: nat): (rows: seq<MonthRow>)
    ensures |rows| == n
  {
    if n == 0 then [] else ProjectedRows(e, inputs, n - 1) + [Rounded(e, MonthAt(e, inputs, n))]
  }

  /** Appending to a sequence leaves its prefixes alone. */
  lemma AppendKeepsPrefix<T>(s: seq<T>, x: T, m: nat)
    requires m <= |s|
    ensures (s + [x])[..m] == s[..m]
  {
  }

  /** A longer horizon only appends months: the first m rows of an n-month
      projection are the m-month projection. */
  lemma {:induction false} ProjectedRowsPrefix(e: Engine, inputs: ModelInputs, m: nat, n: nat)
    requires m <= n
    ensures ProjectedRows(e, inputs, n)[..m] == ProjectedRows(e, inputs, m)
    decreases n
  {
    if m < n {
      ProjectedRowsPrefix(e, inputs, m, n - 1);
      AppendKeepsPrefix(ProjectedRows(e, inputs, n - 1), Rounded(e, MonthAt(e, inputs, n)), m);
    }
  }

  /** Row k of the projection is month k + 1, rounded. */
  lemma ProjectedRowsAt(e: Engine, inputs: ModelInputs, n: nat, k: int)
    requires 0 <= k < n
    ensures ProjectedRows(e, inputs, n)[k] == Rounded(e, MonthAt(e, inputs, k + 1))
  {
    ProjectedRowsPrefix(e, inputs, k + 1, n);
    assert ProjectedRows(e, inputs, n)[k] == ProjectedRows(e, inputs, n)[..k + 1][k];
  }

  /** The month loop: carries the user count forward and appends one
      rounded row per month to a table whose month numbers are filled in
      up front. */
  method ProjectMonths(e: Engine, inputs: ModelInputs) returns (table: MonthlyTable)
    requires inputs.ProjectionMonths >= 1
    ensures table.Month == MonthNumbers(inputs.ProjectionMonths)
    ensures table.Rows == ProjectedRows(e, inputs, inputs.ProjectionMonths)
  {
    var months := inputs.ProjectionMonths;
    table := MonthlyTable(MonthNumbers(months), []);
    var currentUsers := inputs.InitialUsers;
    var month := 1;
    while month <= months
      invariant 1 <= month <= months + 1
      invariant month == 1 ==> currentUsers == inputs.InitialUsers
      invariant month > 1 ==> currentUsers == UsersAt(e, inputs, month - 1)
      invariant table.Month == MonthNumbers(months)
      invariant table.Rows == ProjectedRows(e, inputs, month - 1)
    {
      var newUsers, churnedUsers, activeUsers;
      if month == 1 {
        newUsers := 0;
        churnedUsers := 0;
        activeUsers := currentUsers;
      } else {
        newUsers := NewUsersFrom(e, inputs, currentUsers);
        churnedUsers := ChurnedUsersFrom(e, inputs, currentUsers);
        currentUsers := currentUsers + newUsers - churnedUsers;
        activeUsers := currentUsers;
      }
      var figures := Figures(e, inputs, activeUsers, newUsers, churnedUsers);
      table := table.(Rows := table.Rows + [Rounded(e, figures)]);
      month := month + 1;
    }
  }

  /** calculate: the month loop, then the summary of the table it built. */
  method Calculate(e: Engine, inputs: ModelInputs) returns (res: Results)
    requires inputs.ProjectionMonths >= 1
    ensures res.inputs == inputs
    ensures res.table.Month == MonthNumbers(inputs.ProjectionMonths)
    ensures res.table.Rows == ProjectedRows(e, inputs, inputs.ProjectionMonths)
    ensures forall k :: 0 <= k < inputs.ProjectionMonths
              ==> res.table.Rows[k] == Rounded(e, MonthAt(e, inputs, k + 1))
    ensures res.summary == Summarize(e, inputs, res.table)
  {
    var table := ProjectMonths(e, inputs);
    forall k | 0 <= k < inputs.ProjectionMonths
      ensures table.Rows[k] == Rounded(e, MonthAt(e, inputs, k + 1))
    {
      ProjectedRowsAt(e, inputs, inputs.ProjectionMonths, k);
    }
    var summary := Summarize(e, inputs, table);
    res := Results(table, summary, inputs);
  }
}

=== FILE: rollup.dfy ===
/** The summary computed once the monthly table exists: unit economics
    (Total ARPU, LTV, LTV/CAC), revenue and EBITDA per projection year,
    the final-month snapshot and the mean margins. */
module Rollup {
  import opened Numerics
  import opened Inputs
  import opened Months
  import opened Table

  datatype Summary = Summary(
    Ltv: real,
    Cac: real,
    LtvCacRatio: real,
    TotalArpu: real,
    ChurnRate: real,
    AverageLifetimeMonths: real,
    Year1Revenue: real,
    Year1Ebitda: real,
    Year2Revenue: real,
    Year2Ebitda: real,
    Year3Revenue: real,
    Year3Ebitda: real,
    FinalMonthUsers: int,
    FinalMonthRevenue: real,
    AvgGrossMargin: real,
    AvgNetMargin: real)

  /** The sum of a column, adding from the front as a loop would. */
  function Sum(s: seq<real>): real
  {
    if s == [] then 0.0 else Sum(s[..|s| - 1]) + s[|s| - 1]
  }

  /** The arithmetic mean of a non-empty column. */
  function Mean(s: seq<real>): real
    requires |s| >= 1
  {
    Sum(s) / |s| as real
  }

  function Min(a: int, b: int): int
  {
    if a <= b then a else b
  }

  /** The total of one column over projection year `year` (1, 2 or 3),
      rounded to cents. Year 1 takes whatever part of the first twelve
      months exists; years 2 and 3 are 0 unless the horizon covers them. */
  function YearTotal(e: Engine, column: seq<real>, year: int): (r: real)
    requires 1 <= year <= 3
    ensures year == 1 && |column| <= 12 ==> r == Round2(e, Sum(column))
    ensures year == 1 && |column| >= 12 ==> r == Round2(e, Sum(column[..12]))
    ensures year > 1 && |column| < 12 * year ==> r == 0.0
    ensures year > 1 && |column| >= 12 * year
            ==> r == Round2(e, Sum(column[12 * (year - 1) .. 12 * year]))
  {
    if year == 1 then
      assert |column| <= 12 ==> column[..Min(12, |column|)] == column;
      Round2(e, Sum(column[..Min(12, |column|)]))
    else if |column| >= 12 * year then
      Round2(e, Sum(column[12 * (year - 1) .. 12 * year]))
    else 0.0
  }

  /** Lifetime value: per-user monthly revenue over the average lifetime. */
  function Ltv(inputs: ModelInputs): real
  {
    TotalArpu(inputs) * inputs.AverageLifetimeMonths
  }

  /** LTV over CAC, with 0 in place of a division by a CAC that is not
      positive. */
  function LtvCacRatio(inputs: ModelInputs): (r: real)
    ensures inputs.Cac > 0.0 ==> r * inputs.Cac == Ltv(inputs)
    ensures inputs.Cac <= 0.0 ==> r == 0.0
  {
    if inputs.Cac > 0.0 then Ltv(inputs) / inputs.Cac else 0.0
  }

  /** The summary of a table of `inputs.ProjectionMonths` rows. */
  function Summarize(e: Engine, inputs: ModelInputs, t: MonthlyTable): (r: Summary)
    requires inputs.ProjectionMonths >= 1 && |t.Rows| == inputs.ProjectionMonths
    ensures r.Cac == inputs.Cac && r.ChurnRate == inputs.ChurnRate
    ensures r.AverageLifetimeMonths == inputs.AverageLifetimeMonths
    ensures inputs.ProjectionMonths < 24 ==> r.Year2Revenue == 0.0 && r.Year2Ebitda == 0.0
    ensures inputs.ProjectionMonths < 36 ==> r.Year3Revenue == 0.0 && r.Year3Ebitda == 0.0
    ensures r.FinalMonthUsers == t.Rows[inputs.ProjectionMonths - 1].TotalUsers
    ensures r.FinalMonthRevenue == t.Rows[inputs.ProjectionMonths - 1].TotalRevenue
    ensures r.Ltv == Round2(e, Ltv(inputs)) && r.LtvCacRatio == Round2(e, LtvCacRatio(inputs))
    ensures r.TotalArpu == Round2(e, TotalArpu(inputs))
    ensures r.Year1Revenue == YearTotal(e, Column(t.Rows, Revenue), 1)
    ensures r.Year2Revenue == YearTotal(e, Column(t.Rows, Revenue), 2)
    ensures r.Year3Revenue == YearTotal(e, Column(t.Rows, Revenue), 3)
    ensures r.Year1Ebitda == YearTotal(e, Column(t.Rows, EbitdaAmount), 1)
    ensures r.Year2Ebitda == YearTotal(e, Column(t.Rows, EbitdaAmount), 2)
    ensures r.Year3Ebitda == YearTotal(e, Column(t.Rows, EbitdaAmount), 3)
    ensures r.AvgGrossMargin == Round2(e, Mean(Column(t.Rows, GrossMarginPct)))
    ensures r.AvgNetMargin == Round2(e, Mean(Column(t.Rows, NetMarginPct)))
  {
    var last := t.Rows[inputs.ProjectionMonths - 1];
    var revenue := Column(t.Rows, Revenue);
    var ebitda := Column(t.Rows, EbitdaAmount);
    Summary(
      Round2(e, Ltv(inputs)),
      inputs.Cac,
      Round2(e, LtvCacRatio(inputs)),
      Round2(e, TotalArpu(inputs)),
      inputs.ChurnRate,
      inputs.AverageLifetimeMonths,
      YearTotal(e, revenue, 1),
      YearTotal(e, ebitda, 1),
      YearTotal(e, revenue, 2),
      YearTotal(e, ebitda, 2),
      YearTotal(e, revenue, 3),
      YearTotal(e, ebitda, 3),
      last.TotalUsers,
      last.TotalRevenue,
      Round2(e, Mean(Column(t.Rows, GrossMarginPct))),
      Round2(e, Mean(Column(t.Rows, NetMarginPct))))
  }
}

=== FILE: row_facts.dfy ===
/** What the stored table promises, row by row. Row k of the table is month
    k + 1 rounded (Projection.Calculate), so these lemmas are stated about
    `Rounded(e, MonthAt(e, inputs, m))`, the row stored for month m: the
    stored rows satisfy the user recurrence themselves, split active users
    into premium and free users, carry the same fixed costs every month, keep
    the margin bounds, and add up to within the rounding of their columns. */
module RowFacts {
  import opened Numerics
  import opened Inputs
  import opened Months
  import opened MonthFacts

  /** The user columns of a stored row: the total is the recurrence's count
      for that month, the active users are the total, premium and free users
      make up the active users, and the seed month has no new and no
      churned users. Fixed costs are the same rounded amount in every row. */
  lemma StoredRow(e: Engine, inputs: ModelInputs, m: int)
    requires m >= 1
    ensures var row := Rounded(e, MonthAt(e, inputs, m));
      && row.TotalUsers == UsersAt(e, inputs, m)
      && row.ActiveUsers == row.TotalUsers
      && row.PremiumUsers + row.FreeUsers == row.ActiveUsers
      && row.FixedCosts == Round2(e, MonthlyFixedCosts(inputs))
      && (m == 1 ==> row.NewUsers == 0 && row.ChurnedUsers == 0)
  {
    MonthUsers(e, inputs, m);
    MonthIdentities(e, inputs, m);
    if m == 1 {
      SeedMonth(e, inputs);
    }
  }

  /** Consecutive stored rows obey the user recurrence: the new and churned
      users of a row are converted from the previous row's total, and the
      row's total is the previous total plus new minus churned users. */
  lemma StoredRecurrence(e: Engine, inputs: ModelInputs, m: int)
    requires m >= 2
    ensures var previous := Rounded(e, MonthAt(e, inputs, m - 1));
      var row := Rounded(e, MonthAt(e, inputs, m));
      && row.NewUsers == ToCount(e, Share(previous.TotalUsers, inputs.MonthlyGrowthRate))
      && row.ChurnedUsers == ToCount(e, Share(previous.TotalUsers, inputs.ChurnRate))
      && row.TotalUsers == previous.TotalUsers + row.NewUsers - row.ChurnedUsers
  {
    UserRecurrence(e, inputs, m);
  }

  /** With valid inputs no user column of a stored row is negative and the
      premium users never exceed the active users. */
  lemma StoredUsersNonNegative(e: Engine, inputs: ModelInputs, m: int)
    requires InRange(inputs)
    requires m >= 1
    ensures var row := Rounded(e, MonthAt(e, inputs, m));
      && 0 <= row.TotalUsers && 0 <= row.NewUsers && 0 <= row.ChurnedUsers
      && 0 <= row.PremiumUsers <= row.ActiveUsers && 0 <= row.FreeUsers
  {
    UsersNonNegative(e, inputs, m);
    var users, newUsers, churnedUsers := inputs.InitialUsers, 0, 0;
    if m > 1 {
      var previous := UsersAt(e, inputs, m - 1);
      UsersNonNegative(e, inputs, m - 1);
      StepNonNegative(e, inputs, previous);
      users, newUsers, churnedUsers := UsersAt(e, inputs, m),
        NewUsersFrom(e, inputs, previous), ChurnedUsersFrom(e, inputs, previous);
    }
    assert MonthAt(e, inputs, m) == Figures(e, inputs, users, newUsers, churnedUsers);
    FiguresUsers(e, inputs, users, newUsers, churnedUsers);
    PremiumWithinActive(e, inputs, users, newUsers, churnedUsers);
  }

  /** Every column is rounded on its own, so the stored totals need not be
      the sums of the stored parts: total revenue is within 2.5 cents of
      its four streams and EBITDA within 1.5 cents of revenue less costs. */
  lemma StoredTotalsNearSums(e: Engine, inputs: ModelInputs, m: int)
    requires m >= 1
    ensures var row := Rounded(e, MonthAt(e, inputs, m));
      && -0.025 <= row.TotalRevenue - (row.RevenuePremium + row.RevenueStablecoin + row.RevenueAssetFee + row.RevenueApi) <= 0.025
      && -0.015 <= row.Ebitda - (row.TotalRevenue - row.TotalCosts) <= 0.015
  {
    var r := MonthAt(e, inputs, m);
    MonthIdentities(e, inputs, m);
    Round2Cents(e, r.RevenuePremium);
    Round2Cents(e, r.RevenueStablecoin);
    Round2Cents(e, r.RevenueAssetFee);
    Round2Cents(e, r.RevenueApi);
    Round2Cents(e, r.TotalRevenue);
    Round2Cents(e, r.TotalCosts);
    Round2Cents(e, r.Ebitda);
  }

  /** The stored margins keep the bounds of the unrounded ones: when the
      user counts stay non-negative and the unit costs are not negative, the
      gross margin is at most 100 % and, when fixed costs are not negative,
      the net margin is at most the gross margin. */
  lemma StoredMarginsBounded(e: Engine, inputs: ModelInputs, m: int)
    requires CountsStayNonNegative(inputs)
    requires inputs.Cac >= 0.0 && inputs.VariableCostKyc >= 0.0 && inputs.VariableCostInfrastructure >= 0.0
    requires m >= 1
    ensures Rounded(e, MonthAt(e, inputs, m)).GrossMargin <= 100.0
    ensures MonthlyFixedCosts(inputs) >= 0.0
            ==> Rounded(e, MonthAt(e, inputs, m)).NetMargin <= Rounded(e, MonthAt(e, inputs, m)).GrossMargin
  {
    var r := MonthAt(e, inputs, m);
    MonthMarginsBounded(e, inputs, m);
    Round2KeepsUpperBound(e, r.GrossMargin, 10000);
    if MonthlyFixedCosts(inputs) >= 0.0 {
      Round2Monotone(e, r.NetMargin, r.GrossMargin);
    }
  }

  /** `stored` is `computed` as a column holds it: a whole number of cents,
      at most half a cent away. */
  predicate StoredAs(computed: real, stored: real)
  {
    (stored * 100.0).Floor as real == stored * 100.0 && -0.005 <= stored - computed <= 0.005
  }

  /** Storing a row rounds each of its fifteen amounts and percentages to
      the nearest cent, in either engine. */
  lemma RoundedNearComputed(e: Engine, r: MonthRow)
    ensures var s := Rounded(e, r);
      && StoredAs(r.RevenuePremium, s.RevenuePremium)
      && StoredAs(r.RevenueStablecoin, s.RevenueStablecoin)
      && StoredAs(r.RevenueAssetFee, s.RevenueAssetFee)
      && StoredAs(r.RevenueApi, s.RevenueApi)
      && StoredAs(r.TotalRevenue, s.TotalRevenue)
      && StoredAs(r.CacCost, s.CacCost)
      && StoredAs(r.KycCost, s.KycCost)
      && StoredAs(r.InfrastructureCost, s.InfrastructureCost)
      && StoredAs(r.TotalVariableCosts, s.TotalVariableCosts)
      && StoredAs(r.FixedCosts, s.FixedCosts)
      && StoredAs(r.TotalCosts, s.TotalCosts)
      && StoredAs(r.GrossProfit, s.GrossProfit)
      && StoredAs(r.GrossMargin, s.GrossMargin)
      && StoredAs(r.Ebitda, s.Ebitda)
      && StoredAs(r.NetMargin, s.NetMargin)
  {
    Round2Cents(e, r.RevenuePremium);
    Round2Cents(e, r.RevenueStablecoin);
    Round2Cents(e, r.RevenueAssetFee);
    Round2Cents(e, r.RevenueApi);
    Round2Cents(e, r.TotalRevenue);
    Round2Cents(e, r.CacCost);
    Round2Cents(e, r.KycCost);
    Round2Cents(e, r.InfrastructureCost);
    Round2Cents(e, r.TotalVariableCosts);
    Round2Cents(e, r.FixedCosts);
    Round2Cents(e, r.TotalCosts);
    Round2Cents(e, r.GrossProfit);
    Round2Cents(e, r.GrossMargin);
    Round2Cents(e, r.Ebitda);
    Round2Cents(e, r.NetMargin);
  }

  /** A stored row is already in cents: storing it again changes nothing. */
  lemma RoundedIdempotent(e: Engine, r: MonthRow)
    ensures Rounded(e, Rounded(e, r)) == Rounded(e, r)
  {
    Round2Idempotent(e, r.RevenuePremium);
    Round2Idempotent(e, r.RevenueStablecoin);
    Round2Idempotent(e, r.RevenueAssetFee);
    Round2Idempotent(e, r.RevenueApi);
    Round2Idempotent(e, r.TotalRevenue);
    Round2Idempotent(e, r.CacCost);
    Round2Idempotent(e, r.KycCost);
    Round2Idempotent(e, r.InfrastructureCost);
    Round2Idempotent(e, r.TotalVariableCosts);
    Round2Idempotent(e, r.FixedCosts);
    Round2Idempotent(e, r.TotalCosts);
    Round2Idempotent(e, r.GrossProfit);
    Round2Idempotent(e, r.GrossMargin);
    Round2Idempotent(e, r.Ebitda);
    Round2Idempotent(e, r.NetMargin);
  }

  /** With user counts that stay non-negative, a non-negative conversion
      rate, non-negative ARPUs and non-negative unit costs, no stored
      revenue stream and no stored variable cost is negative. */
  lemma StoredAmountsNonNegative(e: Engine, inputs: ModelInputs, m: int)
    requires CountsStayNonNegative(inputs) && inputs.PremiumConversionRate >= 0.0 && m >= 1
    requires inputs.ArpuPremium >= 0.0 && inputs.ArpuStablecoinYield >= 0.0
    requires inputs.ArpuAssetFee >= 0.0 && inputs.ArpuApi >= 0.0
    requires inputs.Cac >= 0.0 && inputs.VariableCostKyc >= 0.0 && inputs.VariableCostInfrastructure >= 0.0
    ensures var row := Rounded(e, MonthAt(e, inputs, m));
      && 0.0 <= row.RevenuePremium && 0.0 <= row.RevenueStablecoin
      && 0.0 <= row.RevenueAssetFee && 0.0 <= row.RevenueApi && 0.0 <= row.TotalRevenue
      && 0.0 <= row.CacCost && 0.0 <= row.KycCost && 0.0 <= row.InfrastructureCost
      && 0.0 <= row.TotalVariableCosts
  {
    var r := MonthAt(e, inputs, m);
    var users, newUsers, churnedUsers := inputs.InitialUsers, 0, 0;
    if m > 1 {
      var previous := UsersAt(e, inputs, m - 1);
      UsersNonNegative(e, inputs, m - 1);
      StepKeepsNonNegative(e, inputs, previous);
      users, newUsers, churnedUsers := UsersAt(e, inputs, m),
        NewUsersFrom(e, inputs, previous), ChurnedUsersFrom(e, inputs, previous);
    }
    UsersNonNegative(e, inputs, m);
    assert r == Figures(e, inputs, users, newUsers, churnedUsers);
    FiguresAmountsNonNegative(e, inputs, users, newUsers, churnedUsers);
    Round2KeepsLowerBound(e, r.RevenuePremium, 0);
    Round2KeepsLowerBound(e, r.RevenueStablecoin, 0);
    Round2KeepsLowerBound(e, r.RevenueAssetFee, 0);
    Round2KeepsLowerBound(e, r.RevenueApi, 0);
    Round2KeepsLowerBound(e, r.TotalRevenue, 0);
    Round2KeepsLowerBound(e, r.CacCost, 0);
    Round2KeepsLowerBound(e, r.KycCost, 0);
    Round2KeepsLowerBound(e, r.InfrastructureCost, 0);
    Round2KeepsLowerBound(e, r.TotalVariableCosts, 0);
  }

  /** The margin guard tests the computed revenue: a month whose computed
      revenue is not positive stores both margins as 0. */
  lemma StoredMarginsZeroWithoutRevenue(e: Engine, inputs: ModelInputs, m: int)
    requires m >= 1
    ensures MonthAt(e, inputs, m).TotalRevenue <= 0.0
            ==> Rounded(e, MonthAt(e, inputs, m)).GrossMargin == 0.0
                && Rounded(e, MonthAt(e, inputs, m)).NetMargin == 0.0
  {
    var r := MonthAt(e, inputs, m);
    MonthMargins(e, inputs, m);
    if r.TotalRevenue <= 0.0 {
      Round2Zero(e);
    }
  }

  /** A row stored with the margin guard applied to the stored revenue: when
      the revenue is stored as 0.00 or less, both stored margins are 0. */
  function StoredWithRevenueGuard(e: Engine, r: MonthRow): (s: MonthRow)
    ensures s.TotalRevenue == Rounded(e, r).TotalRevenue
    ensures s.TotalRevenue <= 0.0 ==> s.GrossMargin == 0.0 && s.NetMargin == 0.0
    ensures s.TotalRevenue > 0.0 ==> s == Rounded(e, r)
  {
    var stored := Rounded(e, r);
    if stored.TotalRevenue > 0.0 then stored
    else stored.(GrossMargin := 0.0, NetMargin := 0.0)
  }

  /** The guarded storage differs from the engines' storage only in a month
      whose revenue is positive but below half a cent, so that it is stored
      as 0.00. */
  lemma RevenueGuardChangesOnlyTinyRevenue(e: Engine, inputs: ModelInputs, m: int)
    requires m >= 1
    ensures StoredWithRevenueGuard(e, MonthAt(e, inputs, m)) != Rounded(e, MonthAt(e, inputs, m))
            ==> 0.0 < MonthAt(e, inputs, m).TotalRevenue <= 0.005
  {
    var r := MonthAt(e, inputs, m);
    var stored := Rounded(e, r);
    if StoredWithRevenueGuard(e, r) != stored {
      assert stored.TotalRevenue <= 0.0;
      StoredMarginsZeroWithoutRevenue(e, inputs, m);
      Round2Cents(e, r.TotalRevenue);
    }
  }
}

=== FILE: scenario_facts.dfy ===
/** The base preset worked through by hand: the first two months and the
    unit economics of the "base" scenario, the same in both engines. */
module ScenarioFacts {
  import opened Numerics
  import opened Inputs
  import opened Months
  import opened MonthFacts
  import opened Rollup

  /** Month 1 of the base scenario: 1000 users, 20 % of them premium, each
      premium user bringing 14 a month, 0.5 of infrastructure per user and
      100000 of fixed costs. */
  lemma BaseScenarioMonthOne(e: Engine)
    ensures var r := MonthAt(e, BaseScenario, 1);
      && r.ActiveUsers == 1000 && r.PremiumUsers == 200 && r.FreeUsers == 800
      && r.TotalRevenue == 2800.0 && r.TotalVariableCosts == 500.0
      && r.GrossProfit == 2300.0 && r.Ebitda == -97700.0
  {
    assert Share(1000, 20.0) == 200.0;
  }

  /** Its stored gross margin: 2300 / 2800 is 82.142...%, stored as 82.14. */
  lemma BaseScenarioMonthOneMargin(e: Engine)
    ensures Rounded(e, MonthAt(e, BaseScenario, 1)).GrossMargin == 82.14
  {
    BaseScenarioMonthOne(e);
    var margin := MonthAt(e, BaseScenario, 1).GrossMargin;
    assert margin == 2300.0 / 2800.0 * 100.0;
    assert (margin * 100.0).Floor == 8214;
    assert (margin * 100.0 + 0.5).Floor == 8214;
    assert 8214 as real / 100.0 == 82.14;
  }

  /** Month 2 of the base scenario gains 15 % and loses 5 % of the 1000
      users of month 1; acquisition costs follow the 150 new users. */
  lemma BaseScenarioMonthTwo(e: Engine)
    ensures var r := MonthAt(e, BaseScenario, 2);
      && r.NewUsers == 150 && r.ChurnedUsers == 50 && r.TotalUsers == 1100
      && r.PremiumUsers == 220 && r.TotalRevenue == 3080.0
      && r.CacCost == 7500.0 && r.KycCost == 750.0 && r.InfrastructureCost == 550.0
  {
    assert Share(1000, 15.0) == 150.0;
    assert Share(1000, 5.0) == 50.0;
    assert UsersAt(e, BaseScenario, 2) == 1100;
    assert Share(1100, 20.0) == 220.0;
  }

  /** The base scenario's unit economics: Total ARPU 14, LTV 14 * 24 = 336,
      and LTV/CAC 336 / 50 = 6.72. */
  lemma BaseScenarioUnitEconomics(e: Engine)
    ensures Round2(e, TotalArpu(BaseScenario)) == 14.0
    ensures Round2(e, Ltv(BaseScenario)) == 336.0
    ensures Round2(e, LtvCacRatio(BaseScenario)) == 6.72
  {
    Round2OfCents(e, 1400);
    Round2OfCents(e, 33600);
    Round2OfCents(e, 672);
  }

  /** One premium user earning 0.004 a month and costing 0.5 of
      infrastructure; every other amount is 0. */
  const TinyRevenue := ModelInputs(
    1, 0.0, 0.0, 0.0, 0.0, 0.004, 0.0, 0.0, 0.0, 100.0, 0.0, 0.0,
    0.0, 0.0, 0.0, 0.0, 0.5, 1)

  /** Its only month has revenue 0.004 > 0, so the margin guard divides:
      the gross margin is -0.496 / 0.004 * 100 = -12400 %. */
  lemma TinyRevenueMonth(e: Engine)
    ensures MonthAt(e, TinyRevenue, 1).TotalRevenue == 0.004
    ensures MonthAt(e, TinyRevenue, 1).GrossMargin == -12400.0
  {
    assert Share(1, 100.0) == 1.0;
    assert ToCount(e, 1.0) == 1;
    var r := Breakdown(TinyRevenue, 1, 1, 0, 0);
    assert MonthAt(e, TinyRevenue, 1) == r;
    assert r.TotalRevenue == 0.004;
    assert r.GrossProfit == -0.496;
    assert r.GrossMargin == Margin(-0.496, 0.004);
  }

  /** Less than half a cent is stored as 0.00 by either engine. */
  lemma TinyRevenueRoundsToZero(e: Engine)
    ensures Round2(e, 0.004) == 0.0
  {
    Round2Cents(e, 0.004);
    var n := (Round2(e, 0.004) * 100.0).Floor;
    assert -0.1 <= n as real <= 0.9;
    assert n == 0;
  }

  /** Any row with that revenue and margin is stored with a revenue of
      0.00 and the margin unchanged. */
  lemma TinyRevenueRowStored(e: Engine, r: MonthRow)
    requires r.TotalRevenue == 0.004 && r.GrossMargin == -12400.0
    ensures Rounded(e, r).TotalRevenue == 0.0
    ensures Rounded(e, r).GrossMargin == -12400.0
  {
    TinyRevenueRoundsToZero(e);
    Round2OfCents(e, -1240000);
    assert -1240000 as real / 100.0 == -12400.0;
  }

  /** Both engines store that margin next to a revenue of 0.00. */
  lemma TinyRevenueStoredMargin(e: Engine)
    ensures Rounded(e, MonthAt(e, TinyRevenue, 1)).TotalRevenue == 0.0
    ensures Rounded(e, MonthAt(e, TinyRevenue, 1)).GrossMargin == -12400.0
  {
    TinyRevenueMonth(e);
    TinyRevenueRowStored(e, MonthAt(e, TinyRevenue, 1));
  }
}

=== FILE: summary_facts.dfy ===
/** What the summary promises about the table it is computed from: the
    projection-year totals partition the first three years up to rounding,
    the final-month snapshot is the recurrence's last count, the LTV/CAC
    guard, and the mean margins keep the per-month bounds. */
module SummaryFacts {
  import opened Numerics
  import opened Inputs
  import opened Months
  import opened MonthFacts
  import opened RowFacts
  import opened Table
  import opened Rollup

  /** The table holds one row per projected month, row k being month k + 1
      rounded: what Projection.Calculate ensures of the table it returns. */
  ghost predicate Projects(e: Engine, inputs: ModelInputs, t: MonthlyTable)
  {
    && |t.Rows| == inputs.ProjectionMonths
    && forall k :: 0 <= k < |t.Rows| ==> t.Rows[k] == Rounded(e, MonthAt(e, inputs, k + 1))
  }

  /** Summing a concatenation sums the parts. */
  lemma {:induction false} SumAppend(a: seq<real>, b: seq<real>)
    ensures Sum(a + b) == Sum(a) + Sum(b)
    decreases |b|
  {
    if b == [] {
      assert a + b == a;
    } else {
      var front := b[..|b| - 1];
      assert (a + b)[..|a + b| - 1] == a + front;
      SumAppend(a, front);
    }
  }

  /** The three projection-year windows split the first 36 months. */
  lemma SumOfYears(s: seq<real>)
    requires |s| >= 36
    ensures Sum(s[..12]) + Sum(s[12..24]) + Sum(s[24..36]) == Sum(s[..36])
  {
    assert s[..24] == s[..12] + s[12..24];
    assert s[..36] == s[..24] + s[24..36];
    SumAppend(s[..12], s[12..24]);
    SumAppend(s[..24], s[24..36]);
  }

  /** A column whose every value is at most b sums to at most its length
      times b. */
  lemma {:induction false} SumAtMost(s: seq<real>, b: real)
    requires forall k :: 0 <= k < |s| ==> s[k] <= b
    ensures Sum(s) <= |s| as real * b
    decreases |s|
  {
    if s != [] {
      SumAtMost(s[..|s| - 1], b);
    }
  }

  /** ... so its mean is at most b. */
  lemma MeanAtMost(s: seq<real>, b: real)
    requires |s| >= 1
    requires forall k :: 0 <= k < |s| ==> s[k] <= b
    ensures Mean(s) <= b
  {
    SumAtMost(s, b);
    var n := |s| as real;
    assert Sum(s) / n <= (n * b) / n;
  }

  /** The three year totals add up to the total of the first 36 months,
      up to the rounding of each (1.5 cents in all). */
  lemma YearTotalsCoverThreeYears(e: Engine, column: seq<real>)
    requires |column| >= 36
    ensures var total := YearTotal(e, column, 1) + YearTotal(e, column, 2) + YearTotal(e, column, 3);
      -0.015 <= total - Sum(column[..36]) <= 0.015
  {
    SumOfYears(column);
    Round2Cents(e, Sum(column[..12]));
    Round2Cents(e, Sum(column[12..24]));
    Round2Cents(e, Sum(column[24..36]));
  }

  /** The final-month snapshot is the last count of the user recurrence and
      the last month's revenue, rounded. */
  lemma SummaryFinalMonth(e: Engine, inputs: ModelInputs, t: MonthlyTable)
    requires inputs.ProjectionMonths >= 1 && Projects(e, inputs, t)
    ensures Summarize(e, inputs, t).FinalMonthUsers == UsersAt(e, inputs, inputs.ProjectionMonths)
    ensures Summarize(e, inputs, t).FinalMonthRevenue
            == Round2(e, MonthAt(e, inputs, inputs.ProjectionMonths).TotalRevenue)
  {
    StoredRow(e, inputs, inputs.ProjectionMonths);
  }

  /** The unit economics are stored to the cent: Total ARPU, LTV and the
      LTV/CAC ratio are each within half a cent of their exact values, and a
      CAC that is not positive gives a ratio of exactly 0, never a division
      by zero. */
  lemma SummaryUnitEconomics(e: Engine, inputs: ModelInputs, t: MonthlyTable)
    requires inputs.ProjectionMonths >= 1 && |t.Rows| == inputs.ProjectionMonths
    ensures inputs.Cac <= 0.0 ==> Summarize(e, inputs, t).LtvCacRatio == 0.0
    ensures -0.005 <= Summarize(e, inputs, t).LtvCacRatio - LtvCacRatio(inputs) <= 0.005
    ensures -0.005 <= Summarize(e, inputs, t).Ltv - Ltv(inputs) <= 0.005
    ensures -0.005 <= Summarize(e, inputs, t).TotalArpu - TotalArpu(inputs) <= 0.005
  {
    Round2Zero(e);
    Round2Cents(e, LtvCacRatio(inputs));
    Round2Cents(e, Ltv(inputs));
    Round2Cents(e, TotalArpu(inputs));
  }

  /** With at least 36 months the yearly revenue and EBITDA figures account
      for the first three years of the table, up to rounding. */
  lemma SummaryYearsCoverThreeYears(e: Engine, inputs: ModelInputs, t: MonthlyTable)
    requires inputs.ProjectionMonths >= 36 && |t.Rows| == inputs.ProjectionMonths
    ensures var r := Summarize(e, inputs, t);
      -0.015 <= r.Year1Revenue + r.Year2Revenue + r.Year3Revenue - Sum(Column(t.Rows, Revenue)[..36]) <= 0.015
    ensures var r := Summarize(e, inputs, t);
      -0.015 <= r.Year1Ebitda + r.Year2Ebitda + r.Year3Ebitda - Sum(Column(t.Rows, EbitdaAmount)[..36]) <= 0.015
  {
    YearTotalsCoverThreeYears(e, Column(t.Rows, Revenue));
    YearTotalsCoverThreeYears(e, Column(t.Rows, EbitdaAmount));
  }

  /** The margin columns of a projected table keep the monthly bounds. */
  lemma MarginColumnsBounded(e: Engine, inputs: ModelInputs, t: MonthlyTable)
    requires Projects(e, inputs, t)
    requires CountsStayNonNegative(inputs)
    requires inputs.Cac >= 0.0 && inputs.VariableCostKyc >= 0.0 && inputs.VariableCostInfrastructure >= 0.0
    ensures forall k :: 0 <= k < |t.Rows| ==> Column(t.Rows, GrossMarginPct)[k] <= 100.0
    ensures MonthlyFixedCosts(inputs) >= 0.0 ==>
      forall k :: 0 <= k < |t.Rows| ==> Column(t.Rows, NetMarginPct)[k] <= 100.0
  {
    forall k | 0 <= k < |t.Rows|
      ensures t.Rows[k].GrossMargin <= 100.0
      ensures MonthlyFixedCosts(inputs) >= 0.0 ==> t.Rows[k].NetMargin <= 100.0
    {
      StoredMarginsBounded(e, inputs, k + 1);
    }
  }

  /** The mean margins keep the monthly bounds: when the user counts stay
      non-negative and the unit costs are not negative, the average gross
      margin is at most 100 %, and so is the average net margin when fixed
      costs are not negative. */
  lemma SummaryAverageMarginsBounded(e: Engine, inputs: ModelInputs, t: MonthlyTable)
    requires inputs.ProjectionMonths >= 1 && Projects(e, inputs, t)
    requires CountsStayNonNegative(inputs)
    requires inputs.Cac >= 0.0 && inputs.VariableCostKyc >= 0.0 && inputs.VariableCostInfrastructure >= 0.0
    ensures Summarize(e, inputs, t).AvgGrossMargin <= 100.0
    ensures MonthlyFixedCosts(inputs) >= 0.0 ==> Summarize(e, inputs, t).AvgNetMargin <= 100.0
  {
    MarginColumnsBounded(e, inputs, t);
    var gross := Column(t.Rows, GrossMarginPct);
    MeanAtMost(gross, 100.0);
    Round2KeepsUpperBound(e, Mean(gross), 10000);
    if MonthlyFixedCosts(inputs) >= 0.0 {
      var net := Column(t.Rows, NetMarginPct);
      MeanAtMost(net, 100.0);
      Round2KeepsUpperBound(e, Mean(net), 10000);
    }
  }
}

=== FILE: table.dfy ===
/** The monthly table: the month numbers, filled in up front, and one row per
    simulated month, appended in order. */
module Table {
  import opened Months

  /** The `monthly_data` table. Each column of the source is the sequence of
      one field across `Rows`. */
  datatype MonthlyTable = MonthlyTable(Month: seq<int>, Rows: seq<MonthRow>)

  /** The month numbers 1..n, in order. */
  function MonthNumbers(n: nat): (s: seq<int>)
    ensures |s| == n
    ensures forall k :: 0 <= k < n ==> s[k] == k + 1
  {
    if n == 0 then [] else MonthNumbers(n - 1) + [n]
  }

  /** The real-valued columns the summary reads. */
  datatype Measure = Revenue | EbitdaAmount | GrossMarginPct | NetMarginPct

  /** The value of one measure in one row. */
  function Measured(r: MonthRow, m: Measure): real
  {
    match m
    case Revenue => r.TotalRevenue
    case EbitdaAmount => r.Ebitda
    case GrossMarginPct => r.GrossMargin
    case NetMarginPct => r.NetMargin
  }

  /** One column of the table, read down the rows. */
  function Column(rows: seq<MonthRow>, m: Measure): (s: seq<real>)
    ensures |s| == |rows|
    ensures forall k :: 0 <= k < |rows| ==> s[k] == Measured(rows[k], m)
  {
    if rows == [] then [] else Column(rows[..|rows| - 1], m) + [Measured(rows[|rows| - 1], m)]
  }
}
